=== FILE: README.md ===
# CoolQ HTTP API: event bridge and request envelope

A Dafny model of two pieces of the CoolQ HTTP API plugin.

The **event bridge** (`src/appmain.cpp`) has one handler per platform event: private, group and
discussion messages; group administrator changes; group member decreases and increases; added
friends; friend and group add requests. Each handler runs the same pipeline:

1. It checks its gate. A post URL must be configured. Message events also need the text to match
   the configured pattern.
2. It builds the outbound JSON payload. Numeric `sub_type` codes become fixed labels, and any
   code outside a table becomes `"unknown"`.
3. It posts the payload to the webhook.
4. If a response document comes back, it calls platform primitives (reply, kick, ban, accept or
   deny a request) as the document asks. It then returns the directive: block or ignore.

The **request envelope** (`src/request.h`) covers the API dispatcher:

- the return codes and the default result;
- parameter lookup over URL arguments, form and JSON body;
- typed getters that fall back to a default;
- the handler map ordered by `strcmp`.

Modules, one per file:

- `Wrappers`: `Option`.
- `Ints`: the host's `int32_t` and `int64_t` ranges, defined once.
- `Json`: JSON values and the jansson accessors the handlers use. `json_is_true` accepts only the
  literal `true`. `json_string_value` gives nothing for a non-string.
- `Text`: `itos` and decimal parsing.
- `Anonymous`: how the text of an anonymous group message is split.
- `Labels`: the `sub_type` switches. The private, admin, increase and group-request tables each
  have an inverse: the code a consumer reads back from the label. The decrease table has none,
  because two codes give `kick_me`.
- `Payloads`: the outbound documents.
- `Interpreter`: the directive, and the action list each kind of event gets from a response.
- `Webhook`: the header list and the status-class rule of `post_event`.
- `Bridge`: class `EventBridge`. Each `__event*` handler is a method that calls `Perform` to
  append each primitive call to `log`, and `PostEvent` to record each webhook delivery in
  `deliveries`. Each method is proved to equal the pure functions of `Payloads` and
  `Interpreter`.
- `Request`: the `request.h` envelope.

The external collaborators are constants of `EventBridge`, fixed when it is constructed:

- the compiled pattern (`Config.pattern`, a predicate on text);
- `enhance_cq_code` (`enhance`);
- the network round trip (`transport`, from a delivery to an outcome);
- `json_loads` (`parse`);
- `CQ_getLoginQQ` (`loginQQ`);
- `CQ_APP_FULLNAME` (`appFullName`).

Where the model departs from what one might expect, or reads the code closely:

- Friend add requests read only `remark`, never `reason` (`src/appmain.cpp:468`). Group add
  requests fall back from `reason` to `remark` (`src/appmain.cpp:516-520`). See
  `Interpreter.RemarkExamples`.
- A private reply is sent whenever `reply` is present and not JSON null (`src/appmain.cpp:193`).
  Its text is whatever `json_string_value` returns, so a non-string `reply` reaches the send
  primitive with no text. `SendPrivateMsg` records that as `None`.
- Only message events check the pattern. Notices and requests check only the post URL
  (`SHOULD_POST`, `src/appmain.cpp:97`).
- Parameters are resolved from URL arguments, then form, then the JSON body, in the order the
  doc comment of `src/request.h:37-46` gives.
- `regex_match` with `&#91;(.+?)&#93;:(.*)` runs over the UTF-8 bytes of a `std::string`
  (`src/appmain.cpp:214`), so `.` matches every character except `\n` and `\r`. The lazy first
  group gives the shortest name. Text with a line break
  after the opening marker does not split.
- `strcmp` compares unsigned bytes and stops at the first NUL. `Request.StrLess` compares
  code points instead. The two orders agree on NUL-free text encoded as UTF-8.

## Model

| member | source | states |
|---|---|---|
| Labels.PrivateSubType | src/appmain.cpp:171-184 | total; "unknown" exactly for codes outside 11, 1, 2, 3; every label is one of the five |
| Labels.PrivateSubTypeCode | src/appmain.cpp:171-184 | inverse: each known label reads back as the only code that produces it; "unknown" reads back as nothing |
| Labels.GroupAdminSubType | src/appmain.cpp:319-327 | total; "unknown" exactly for codes other than 1 and 2 |
| Labels.GroupAdminSubTypeCode | src/appmain.cpp:319-327 | inverse of the admin table on "unset" and "set" |
| Labels.GroupIncreaseSubType | src/appmain.cpp:396-404 | total; 1 approve, 2 invite, otherwise "unknown" |
| Labels.GroupIncreaseSubTypeCode | src/appmain.cpp:396-404 | inverse of the increase table |
| Labels.GroupRequestSubType | src/appmain.cpp:489-497 | total; 1 add, 2 invite, otherwise "unknown" |
| Labels.GroupRequestSubTypeCode | src/appmain.cpp:489-497 | inverse of the group-request table |
| Labels.GroupDecreaseSubType | src/appmain.cpp:354-368 | leave iff code 1; kick iff code 2 and the target is not the login account; kick_me iff code 3, or code 2 on the login account (the fall-through); unknown otherwise |
| Labels.GroupDecreaseOperator | src/appmain.cpp:375 | the target itself when it left, the acting account for every other code |
| Payloads.PrivateMessage | src/appmain.cpp:168-187 | read back by `KindOf` as its own event kind, time as an integer; well-formed message payload with exactly its six keys and the private sub_type label |
| Payloads.GroupMessage | src/appmain.cpp:220-228 | read back by `KindOf` as its own event kind, time as an integer; well-formed group payload with exactly its eight keys, anonymous name and flag |
| Payloads.DiscussMessage | src/appmain.cpp:278-284 | read back by `KindOf` as its own event kind, time as an integer; well-formed discussion payload with exactly its six keys and no sub_type |
| Payloads.GroupAdmin | src/appmain.cpp:328-334 | read back by `KindOf` as its own event kind, time as an integer; group_admin event with exactly its keys and the admin label |
| Payloads.GroupMemberDecrease | src/appmain.cpp:369-376 | read back by `KindOf` as its own event kind, time as an integer; group_decrease event; its label, operator_id chosen by code, user_id the target |
| Payloads.GroupMemberIncrease | src/appmain.cpp:405-412 | read back by `KindOf` as its own event kind, time as an integer; group_increase event; its label, the operator and the new member |
| Payloads.FriendAdded | src/appmain.cpp:429-433 | read back by `KindOf` as its own event kind, time as an integer; friend_added event with exactly four keys |
| Payloads.FriendRequest | src/appmain.cpp:452-458 | read back by `KindOf` as its own event kind, time as an integer; friend request with exactly its keys and the response flag |
| Payloads.GroupRequest | src/appmain.cpp:498-506 | read back by `KindOf` as its own event kind, time as an integer; group request with exactly its keys, the request label and the flag |
| Interpreter.ReleaseResponse | src/appmain.cpp:153-157 | block iff the document is an object whose `block` member is the literal true |
| Interpreter.DirectiveOf | src/appmain.cpp:191-199 | no document gives ignore; a document gives release_response's verdict |
| Interpreter.BlockIsStrict | src/appmain.cpp:153-157 | truthy 1 or "true", `{}`, a non-object and no document all give ignore |
| Interpreter.PrivateMessageActions | src/appmain.cpp:191-195 | at most one send; one iff `reply` is present and not null; to the sender; with text iff `reply` is a string |
| Interpreter.PrivateReadsOnlyReply | src/appmain.cpp:191-195 | documents that agree on `reply` give the same actions, so kick, ban and at_sender are ignored |
| Interpreter.ReplyText | src/appmain.cpp:233-248 | a reply exists iff `reply` is a string; the mention marker is prepended iff at_sender is not the boolean false and the sender can be mentioned |
| Interpreter.AtPrefix | src/appmain.cpp:242 | the marker starts with `[CQ:at,qq=`, ends with `] `, and has a `-` right after the `=` iff the sender number is negative |
| Interpreter.AtSender | src/appmain.cpp:237-240 | at_sender holds exactly when the member is not the boolean false: absent, null, true or any non-boolean value all mention the sender |
| Interpreter.AtPrefixNamesSender | src/appmain.cpp:242 | the mention marker starts with `[CQ:at,qq=` and its number parses back to the sender, so distinct senders get distinct markers |
| Interpreter.AtSenderExamples | src/appmain.cpp:237-242 | at_sender false gives "hi"; absent or a non-boolean gives the marker plus "hi"; an anonymous sender gets no marker; a numeric reply sends nothing |
| Interpreter.GroupReply | src/appmain.cpp:233-248 | at most one send; one iff `reply` is a string; to the group, with the reply text for a sender mentionable iff not anonymous |
| Interpreter.GroupKick | src/appmain.cpp:250-253 | at most one kick; one iff kick is the literal true and the sender is not anonymous; the sender, without rejecting later requests |
| Interpreter.GroupBan | src/appmain.cpp:255-262 | at most one ban; one iff ban is the literal true; 1800 seconds; the anonymous primitive with the flag for an anonymous sender, the normal one otherwise |
| Interpreter.GroupMessageActions | src/appmain.cpp:232-262 | at most three actions; none iff `reply` is not a string, there is no kick of a non-anonymous sender and ban is not true; three actions are a send, a kick and a ban in that order |
| Interpreter.GroupMessageActionsSpec | src/appmain.cpp:232-262 | a send iff `reply` is a string, and it comes first; a kick iff kick is true and the sender is not anonymous; one ban iff ban is true, after any kick, for 1800 seconds, anonymous exactly when the sender is |
| Interpreter.DiscussMessageActions | src/appmain.cpp:288-304 | at most one send; one iff `reply` is a string; always offers the mention marker |
| Interpreter.DiscussReadsOnlyReply | src/appmain.cpp:288-304 | documents that agree on `reply` and `at_sender` give the same actions, so kick and ban are ignored |
| Interpreter.Answer | src/appmain.cpp:512-515 | allow iff `approve` is true, deny iff it is false; anything else gives no answer |
| Interpreter.TextOr | src/appmain.cpp:468-469 | the string member's text, or "" when absent or not a string |
| Interpreter.GroupRequestReason | src/appmain.cpp:516-520 | `reason` if a string, else `remark` if a string, else "" |
| Interpreter.FriendRequestActions | src/appmain.cpp:463-472 | one accept/deny iff `approve` is a JSON boolean, with the flag and `remark` |
| Interpreter.GroupRequestActions | src/appmain.cpp:511-523 | one accept/deny iff `approve` is a JSON boolean, with the flag, the sub_type and the reason fallback |
| Interpreter.RemarkExamples | src/appmain.cpp:464-471 | reason and remark both reach a group request; a friend request ignores reason; approve 1 does nothing |
| Anonymous.SplitAnonymous | src/appmain.cpp:213-217 | a result is a full match with the shortest non-empty name; no result means no split exists |
| Anonymous.AnonymousSender | src/appmain.cpp:209-218 | not anonymous: no name, text unchanged; anonymous and matching: the shortest-name split; no match: no name, text unchanged |
| Anonymous.SplitExample | src/appmain.cpp:214-216 | `&#91;Alice&#93;:hello` splits into Alice and hello |
| Anonymous.NoSplitExample | src/appmain.cpp:211-218 | plain text does not split and an anonymous sender keeps it whole |
| Text.Itos | src/appmain.cpp:242 | non-empty decimal text, with a leading '-' iff negative |
| Text.ParseDecimal | src/request.h:48-51 | accepts exactly digits, optionally after one '-'; the sign of the text is the sign of the value |
| Text.ParseDecimalItos | src/request.h:48-51 | parsing the text itos writes gives the number back |
| Text.ItosInjective | src/appmain.cpp:242 | distinct numbers have distinct texts |
| Webhook.Headers | src/appmain.cpp:119-124 | User-Agent, then Content-Type; the Authorization line is present iff the token is non-empty |
| Webhook.BuildHeaders | src/appmain.cpp:119-124 | the appended list equals Headers and is authorized iff the token is non-empty |
| Webhook.Classify | src/appmain.cpp:126-134 | succeeded iff the transfer completed with a status in [200, 300); a document only on success, and then the parse of the body |
| Bridge.EmptyReplyIgnored | src/appmain.cpp:126-134 | with json_loads giving nothing for an empty body, an empty 2xx reply yields no document, no action and ignore |
| Bridge.ShouldPost | src/appmain.cpp:97 | an event is posted iff the post URL is non-empty |
| Bridge.EventBridge.PostEvent | src/appmain.cpp:106-151 | records exactly one delivery to the post URL with the headers, and returns Classify of its outcome |
| Bridge.EventBridge.PrivateMsg | src/appmain.cpp:163-200 | gate closed: ignore, no delivery, no action; otherwise one delivery of the enhanced payload, the private actions if a document came back, and its directive |
| Bridge.EventBridge.GroupMsg | src/appmain.cpp:205-268 | same gate; the payload carries the anonymous split and the enhanced remainder; the log grows by GroupMessageActions when a document came back |
| Bridge.EventBridge.GroupMsgRespond | src/appmain.cpp:232-262 | the step-by-step reply, kick and ban calls append exactly GroupMessageActions |
| Bridge.EventBridge.DiscussMsg | src/appmain.cpp:273-310 | same gate; the log grows by DiscussMessageActions |
| Bridge.EventBridge.GroupAdmin | src/appmain.cpp:316-343 | no action ever; no URL gives ignore and no delivery; otherwise one delivery and its directive |
| Bridge.EventBridge.GroupMemberDecrease | src/appmain.cpp:351-385 | as GroupAdmin, with the decrease payload and the login account's label rule |
| Bridge.EventBridge.GroupMemberIncrease | src/appmain.cpp:393-421 | as GroupAdmin, with the increase payload |
| Bridge.EventBridge.FriendAdd | src/appmain.cpp:426-442 | as GroupAdmin, with the friend_added payload |
| Bridge.EventBridge.RequestAddFriend | src/appmain.cpp:449-478 | URL gate only; the log grows by FriendRequestActions when a document came back |
| Bridge.EventBridge.RequestAddGroup | src/appmain.cpp:486-529 | URL gate only; the log grows by GroupRequestActions when a document came back |
| Request.RetcodeValue | src/request.h:24-29 | every named code is non-negative (0, 100, 101, 102) |
| Request.RetcodeOf | src/request.h:24-29 | inverse: exactly 0, 100, 101 and 102 name a code, each the only one with that value |
| Request.DefaultResult | src/request.h:31-35 | retcode ERROR_DEFAULT (100) and no data |
| Request.HttpStatus | src/request.h:27 | 404 iff the retcode is NO_SUCH_API, 200 otherwise |
| Request.GetParam | src/request.h:37-41 | nothing iff the key is in none of arguments, form and JSON object; otherwise arguments first, then form, then JSON |
| Request.GetStrParam | src/request.h:43-46 | default when absent; the argument or form text; a JSON string's text, default for a non-string |
| Request.IntegerOf | src/request.h:48-51 | any integer read lies within 64 bits |
| Request.GetIntegerParam | src/request.h:48-51 | an int64; the default (0 when none is given) when absent or not a number, the number otherwise |
| Request.IntegerParamRoundTrip | src/request.h:48-51 | an itos-written argument reads back as the integer |
| Request.GetBoolParam | src/request.h:53-56 | default when absent or not a boolean, the boolean otherwise |
| Request.DefaultArguments | src/request.h:46-56 | called without a default, the getters give "", 0 and false for a key that is nowhere |
| Request.BoolOf | src/request.h:53-56 | true exactly for text "true" or "1" or the JSON true; false exactly for text "false" or "0" or the JSON false |
| Request.StrLessIrreflexive | src/request.h:62-66 | no string orders before itself |
| Request.StrLessTransitive | src/request.h:62-66 | the comparator is transitive |
| Request.StrLessTrichotomous | src/request.h:62-66 | two strings are equal or one orders before the other, so equivalence under the comparator is equality |
| Request.StrLess | src/request.h:62-66 | a string never orders before itself; a proper prefix orders before the longer string; a smaller first character orders first |
| Request.StrLessLexicographic | src/request.h:62-66 | orders before iff a proper prefix, or the two agree up to a position where the first has the smaller character |
| Request.Find | src/request.h:68-70 | lookup by comparator equivalence finds an entry whose key is exactly the path, and nothing iff no key is the path |
| Request.OrderedKeysUnique | src/request.h:68-70 | an ordered handler map holds each key once |
| Request.Dispatch | src/request.h:58-70 | an unregistered path gives NO_SUCH_API, no data and HTTP 404; a registered path gives its handler's result unchanged |

## Left out

- The libcurl transfer (`src/appmain.cpp:106-151`): the perform call, the write callback, and
  the `curl_easy_init` failure. These are the `transport` constant. A delivery is recorded for
  each attempt, even when the transport reports that no handle could be made.
- Text.Itos: `itos` (helpers.h) is not part of this model. The model assumes plain decimal text,
  with a leading '-' for negative numbers and no leading zeros.
- jansson packing, `json_dumps`, `json_loads`, reference counts and `free`. Payloads are JSON
  values. Parsing is the `parse` constant. The only thing the model requires of it is that an
  empty body gives no document, as `json_loads("")` returns NULL. Every other body is
  unconstrained.
- GBK and UTF-8 conversion (`decode`, `encode`, `gbk_to_utf8`, `utf8_to_gbk`). Text is modelled
  already decoded, and actions record text before its conversion back.
- `enhance_cq_code` and the configurable `regex_search`. These are the `enhance` and
  `Config.pattern` constants.
- Plugin lifecycle, the global `ac` and `CQ`, `start_httpd`/`stop_httpd`, configuration loading
  and logging (`src/appmain.cpp:20-95`). These are host interface and I/O.
- `cqhttp_main_handler` and the evhttp types (`src/request.h:22`). This is server plumbing whose
  body is not shown. `Request.Dispatch` stands for its table lookup.
- Request.GetStrParam, Request.GetIntegerParam, Request.GetBoolParam: the header's default arguments (`""`, `0`,
  `false`) are Dafny default parameters. What the model chooses, since the bodies are not shown:
  a JSON member that is not a string gives the string getter's default, and a JSON real counts
  as "not a number" for the integer getter.
- The bodies of `cqhttp_get_param` and of the typed getters are not part of this model. The
  text formats the getters accept are chosen by the model: decimal with an optional '-', and
  "true"/"1"/"false"/"0". The proved contract is the header's promise.
- `evhttp` headers may repeat or match keys case-insensitively. URL arguments and form are
  modelled as maps from exact keys.
- std::map's tree. The handler map is modelled as its ordered list of entries, and lookup is
  done by comparator equivalence.

=== FILE: anonymous.dfy ===
/**
 * The split of an anonymous group message (appmain.cpp:209-218): the host
 * writes an anonymous sender's text as `&#91;NAME&#93;:REST`, and the bridge
 * matches the whole UTF-8 text against the std::regex (ECMAScript grammar)
 * `&#91;(.+?)&#93;:(.*)`, taking group 1 as the anonymous name and group 2 as
 * the message.
 */
module Anonymous {
  import opened Wrappers

  const OPEN: string := "&#91;"
  const CLOSE: string := "&#93;:"

  /**
   * The characters `.` does not match here: std::regex runs over the UTF-8
   * bytes of a std::string, so only the bytes '\n' and '\r' end a line.
   */
  predicate IsLineTerminator(c: char)
  {
    c == '\n' || c == '\r'
  }

  predicate NoLineTerminator(s: string)
  {
    forall i :: 0 <= i < |s| ==> !IsLineTerminator(s[i])
  }

  /**
   * `text` is matched in full by the pattern with `name` and `rest` as its
   * two groups (`.+?` a non-empty run of non-terminators, `.*` any run).
   */
  predicate IsSplit(text: string, name: string, rest: string)
  {
    && |name| > 0
    && NoLineTerminator(name)
    && NoLineTerminator(rest)
    && text == OPEN + name + CLOSE + rest
  }

  /** The closing marker starts at position `k` of `text`. */
  predicate CloseAt(text: string, k: nat)
  {
    k + |CLOSE| <= |text| && text[k..k + |CLOSE|] == CLOSE
  }

  /** The text opens with the marker and has no line terminator after it. */
  predicate Opens(text: string)
  {
    |OPEN| <= |text| && text[..|OPEN|] == OPEN && NoLineTerminator(text[|OPEN|..])
  }

  /**
   * regex_match with the lazy first group: the match whose name is shortest,
   * or nothing when the pattern does not match the whole text.
   */
  function SplitAnonymous(text: string): (r: Option<(string, string)>)
    ensures r.Some? ==> IsSplit(text, r.value.0, r.value.1)
    ensures r.Some? ==> forall name, rest :: IsSplit(text, name, rest) ==> |r.value.0| <= |name|
    ensures r.None? ==> forall name, rest :: !IsSplit(text, name, rest)
  {
    if Opens(text) then FindClose(text, |OPEN| + 1)
    else
      NoSplitWithoutOpen(text);
      None
  }

  /** The shortest-name split whose name ends at `k` or later, given none ends earlier. */
  function FindClose(text: string, k: nat): (r: Option<(string, string)>)
    requires Opens(text) && |OPEN| < k
    requires forall j :: |OPEN| < j < k ==> !CloseAt(text, j)
    ensures r.Some? ==> IsSplit(text, r.value.0, r.value.1)
    ensures r.Some? ==> forall name, rest :: IsSplit(text, name, rest) ==> |r.value.0| <= |name|
    ensures r.None? ==> forall name, rest :: !IsSplit(text, name, rest)
    decreases |text| - k
  {
    if k + |CLOSE| > |text| then
      assert forall j :: |OPEN| < j ==> !CloseAt(text, j);
      NoSplitWithoutClose(text);
      None
    else if text[k..k + |CLOSE|] == CLOSE then
      SplitAtClose(text, k);
      ShortestAtFirstClose(text, k);
      Some((text[|OPEN|..k], text[k + |CLOSE|..]))
    else
      FindClose(text, k + 1)
  }

  /** Every split puts the opening marker first, the closing marker after the name, and nothing breaks the line. */
  lemma SplitShape(text: string, name: string, rest: string)
    requires IsSplit(text, name, rest)
    ensures Opens(text)
    ensures CloseAt(text, |OPEN| + |name|)
    ensures name == text[|OPEN|..|OPEN| + |name|]
    ensures rest == text[|OPEN| + |name| + |CLOSE|..]
  {
    var body := text[|OPEN|..];
    assert body == name + CLOSE + rest;
    forall i | 0 <= i < |body|
      ensures !IsLineTerminator(body[i])
    {
      if i < |name| {
        assert body[i] == name[i];
      } else if i < |name| + |CLOSE| {
        assert body[i] == CLOSE[i - |name|];
      } else {
        assert body[i] == rest[i - |name| - |CLOSE|];
      }
    }
  }

  lemma NoSplitWithoutOpen(text: string)
    requires !Opens(text)
    ensures forall name, rest :: !IsSplit(text, name, rest)
  {
    forall name, rest | IsSplit(text, name, rest)
      ensures false
    {
      SplitShape(text, name, rest);
    }
  }

  lemma NoSplitWithoutClose(text: string)
    requires forall j :: |OPEN| < j ==> !CloseAt(text, j)
    ensures forall name, rest :: !IsSplit(text, name, rest)
  {
    forall name, rest | IsSplit(text, name, rest)
      ensures false
    {
      SplitShape(text, name, rest);
    }
  }

  /** A closing marker after a non-empty name, in an opened text, yields a split. */
  lemma SplitAtClose(text: string, k: nat)
    requires Opens(text) && |OPEN| < k && CloseAt(text, k)
    ensures IsSplit(text, text[|OPEN|..k], text[k + |CLOSE|..])
  {
    var body := text[|OPEN|..];
    var name := text[|OPEN|..k];
    var rest := text[k + |CLOSE|..];
    forall i | 0 <= i < |name|
      ensures !IsLineTerminator(name[i])
    {
      assert name[i] == body[i];
    }
    forall i | 0 <= i < |rest|
      ensures !IsLineTerminator(rest[i])
    {
      assert rest[i] == body[k + |CLOSE| - |OPEN| + i];
    }
    assert text == text[..|OPEN|] + text[|OPEN|..k] + text[k..k + |CLOSE|] + text[k + |CLOSE|..];
  }

  lemma ShortestAtFirstClose(text: string, k: nat)
    requires Opens(text) && |OPEN| < k
    requires forall j :: |OPEN| < j < k ==> !CloseAt(text, j)
    ensures forall name, rest :: IsSplit(text, name, rest) ==> k - |OPEN| <= |name|
  {
    forall name, rest | IsSplit(text, name, rest)
      ensures k - |OPEN| <= |name|
    {
      SplitShape(text, name, rest);
    }
  }

  /**
   * The anonymous name and the message text of a group message: split when
   * the sender is anonymous and the pattern matches, otherwise no name and
   * the text unchanged.
   */
  function AnonymousSender(fromAnonymous: string, msg: string): (parts: (string, string))
    ensures fromAnonymous == "" ==> parts == ("", msg)
    ensures fromAnonymous != "" && (exists name, rest :: IsSplit(msg, name, rest)) ==>
      IsSplit(msg, parts.0, parts.1) && forall name, rest :: IsSplit(msg, name, rest) ==> |parts.0| <= |name|
    ensures (forall name, rest :: !IsSplit(msg, name, rest)) ==> parts == ("", msg)
  {
    if |fromAnonymous| > 0 then
      match SplitAnonymous(msg)
      case Some(split) => split
      case None => ("", msg)
    else ("", msg)
  }

  /** An anonymous sender's text in the host's format splits into its name and its message. */
  lemma SplitExample()
    ensures SplitAnonymous("&#91;Alice&#93;:hello") == Some(("Alice", "hello"))
  {
    var text := "&#91;Alice&#93;:hello";
    assert IsSplit(text, "Alice", "hello");
    var r := SplitAnonymous(text);
    var name, rest := r.value.0, r.value.1;
    SplitShape(text, name, rest);
    var k := |OPEN| + |name|;
    assert CloseAt(text, k);
    assert text[k] == '&';
    assert text[6] == 'l' && text[7] == 'i' && text[8] == 'c' && text[9] == 'e';
    assert k == 10;
    assert name == text[5..10] == "Alice";
    assert rest == text[16..] == "hello";
  }

  /** Text without the marker does not split; the handler then keeps it whole, with no name. */
  lemma NoSplitExample()
    ensures SplitAnonymous("hello") == None
    ensures AnonymousSender("flag", "hello") == ("", "hello")
  {
    assert "hello"[0] != OPEN[0];
    assert !Opens("hello");
  }
}

=== FILE: bridge.dfy ===
/**
 * The event bridge of appmain.cpp: one handler per platform event kind.
 * Each checks its gate (a post URL is configured and, for messages, the text
 * matches the pattern), builds the payload, posts it, and from the response
 * document performs the platform actions and returns the directive.
 */
module Bridge {
  import opened Wrappers
  import opened Ints
  import opened Json
  import Payloads
  import Anonymous
  import opened Interpreter
  import opened Webhook

  /** The loaded configuration: the post URL, the token, and the compiled message pattern as a predicate. */
  datatype Config = Config(postUrl: string, token: string, pattern: string -> bool)

  /** SHOULD_POST: events are posted only when a post URL is configured. */
  predicate ShouldPost(config: Config): (post: bool)
    ensures !post <==> config.postUrl == ""
  {
    |config.postUrl| > 0
  }

  /** The actions a handler takes from what came back: none without a document. */
  function Answered(json: Option<Json>, acts: Json -> seq<Action>): seq<Action>
  {
    if json.Some? then acts(json.value) else []
  }

  /**
   * json_loads gives no document for an empty body, so an empty 2xx reply
   * is answered with no action and the event is ignored.
   */
  lemma EmptyReplyIgnored(status: int, parse: string -> Option<Json>, acts: Json -> seq<Action>)
    requires parse("") == None
    ensures Classify(Completed(status, ""), parse).json == None
    ensures DirectiveOf(Classify(Completed(status, ""), parse).json) == Ignore
    ensures Answered(Classify(Completed(status, ""), parse).json, acts) == []
  {
  }

  class EventBridge {
    const config: Config
    /** CQ_APP_FULLNAME, the product identifier sent as User-Agent. */
    const appFullName: string
    /** CQ_getLoginQQ: the account the plugin runs as. */
    const loginQQ: int64
    /** enhance_cq_code in the incoming direction. */
    const enhance: string -> string
    /** The network round trip of one delivery. */
    const transport: Delivery -> Transport
    /** json_loads on a response body. */
    const parse: string -> Option<Json>

    /** The platform primitives called so far, in order. */
    var log: seq<Action>
    /** The webhook deliveries attempted so far, in order. */
    var deliveries: seq<Delivery>

    constructor (config: Config, appFullName: string, loginQQ: int64, enhance: string -> string,
                 transport: Delivery -> Transport, parse: string -> Option<Json>)
      requires parse("") == None
      ensures this.config == config && this.appFullName == appFullName && this.loginQQ == loginQQ
      ensures this.enhance == enhance && this.transport == transport && this.parse == parse
      ensures log == [] && deliveries == []
    {
      this.config := config;
      this.appFullName := appFullName;
      this.loginQQ := loginQQ;
      this.enhance := enhance;
      this.transport := transport;
      this.parse := parse;
      log := [];
      deliveries := [];
    }

    /** The POST of `payload` to the configured URL. */
    function DeliveryOf(payload: Payloads.Payload): Delivery
    {
      Delivery(config.postUrl, Headers(appFullName, config.token), payload)
    }

    /** What post_event reports for `payload`. */
    function ResponseTo(payload: Payloads.Payload): PostResponse
    {
      Classify(transport(DeliveryOf(payload)), parse)
    }

    /** post_event: deliver the payload once and classify the outcome. */
    method PostEvent(payload: Payloads.Payload) returns (response: PostResponse)
      modifies this`deliveries
      ensures deliveries == old(deliveries) + [DeliveryOf(payload)]
      ensures response == ResponseTo(payload)
    {
      var chunk := BuildHeaders(appFullName, config.token);
      var delivery := Delivery(config.postUrl, chunk, payload);
      deliveries := deliveries + [delivery];
      var outcome := transport(delivery);
      response := PostResponse(false, None);
      if outcome.Completed? {
        var statusCode := outcome.status;
        if statusCode >= 200 && statusCode < 300 {
          response := PostResponse(true, parse(outcome.body));
        }
      }
    }

    /** Calls one platform primitive. */
    method Perform(a: Action)
      modifies this`log
      ensures log == old(log) + [a]
    {
      log := log + [a];
    }

    /** __eventPrivateMsg */
    method PrivateMsg(subType: int32, sendTime: int32, fromQQ: int64, msg: string, font: int32) returns (d: Directive)
      modifies this
      ensures !(ShouldPost(config) && config.pattern(msg)) ==>
        d == Ignore && log == old(log) && deliveries == old(deliveries)
      ensures ShouldPost(config) && config.pattern(msg) ==>
        var payload := Payloads.PrivateMessage(subType as int, sendTime as int, fromQQ as int, enhance(msg));
        var json := ResponseTo(payload).json;
        && deliveries == old(deliveries) + [DeliveryOf(payload)]
        && log == old(log) + Answered(json, r => PrivateMessageActions(r, fromQQ as int))
        && d == DirectiveOf(json)
    {
      d := Ignore;
      if ShouldPost(config) && config.pattern(msg) {
        var message := enhance(msg);
        var json := Payloads.PrivateMessage(subType as int, sendTime as int, fromQQ as int, message);
        var response := PostEvent(json);
        if response.json.Some? {
          var replyStrJson := ObjectGet(response.json.value, "reply");
          if replyStrJson.Some? && !IsNull(replyStrJson) {
            Perform(SendPrivateMsg(fromQQ as int, StringValue(replyStrJson)));
          }
          d := ReleaseResponse(response.json.value);
        }
      }
    }

    /** __eventGroupMsg; an empty `fromAnonymous` stands for a sender who is not anonymous. */
    method GroupMsg(subType: int32, sendTime: int32, fromGroup: int64, fromQQ: int64, fromAnonymous: string,
                    msg: string, font: int32) returns (d: Directive)
      modifies this
      ensures !(ShouldPost(config) && config.pattern(msg)) ==>
        d == Ignore && log == old(log) && deliveries == old(deliveries)
      ensures ShouldPost(config) && config.pattern(msg) ==>
        var parts := Anonymous.AnonymousSender(fromAnonymous, msg);
        var payload := Payloads.GroupMessage(sendTime as int, fromGroup as int, fromQQ as int,
                                             parts.0, fromAnonymous, enhance(parts.1));
        var json := ResponseTo(payload).json;
        && deliveries == old(deliveries) + [DeliveryOf(payload)]
        && log == old(log) + Answered(json, r => GroupMessageActions(r, fromGroup as int, fromQQ as int, fromAnonymous))
        && d == DirectiveOf(json)
    {
      d := Ignore;
      var utf8Msg := msg;
      if ShouldPost(config) && config.pattern(utf8Msg) {
        var utf8Anonymous := "";
        var isAnonymous := false;
        if |fromAnonymous| > 0 {
          isAnonymous := true;
          var split := Anonymous.SplitAnonymous(utf8Msg);
          if split.Some? {
            utf8Anonymous := split.value.0;
            utf8Msg := split.value.1;
          }
        }
        utf8Msg := enhance(utf8Msg);
        var json := Payloads.GroupMessage(sendTime as int, fromGroup as int, fromQQ as int,
                                          utf8Anonymous, fromAnonymous, utf8Msg);
        var response := PostEvent(json);
        if response.json.Some? {
          GroupMsgRespond(response.json.value, fromGroup, fromQQ, fromAnonymous, isAnonymous);
          d := ReleaseResponse(response.json.value);
        }
      }
    }

    /** The response part of __eventGroupMsg: reply, kick and ban as the document asks. */
    method GroupMsgRespond(body: Json, fromGroup: int64, fromQQ: int64, fromAnonymous: string, isAnonymous: bool)
      requires isAnonymous <==> fromAnonymous != ""
      modifies this`log
      ensures log == old(log) + GroupMessageActions(body, fromGroup as int, fromQQ as int, fromAnonymous)
    {
      var replyCstr := StringValue(ObjectGet(body, "reply"));
      var reply := if replyCstr.Some? then replyCstr.value else "";

      var atSenderJson := ObjectGet(body, "at_sender");
      var atSender := true;
      if IsBoolean(atSenderJson) && !BooleanValue(atSenderJson) {
        atSender := false;
      }
      if atSender && !isAnonymous {
        reply := AtPrefix(fromQQ as int) + reply;
      }

      assert replyCstr.Some? ==> reply == ReplyText(body, fromQQ as int, !isAnonymous).value;
      if replyCstr.Some? {
        Perform(SendGroupMsg(fromGroup as int, reply));
      }
      assert log == old(log) + GroupReply(body, fromGroup as int, fromQQ as int, fromAnonymous);

      var kick := IsTrue(ObjectGet(body, "kick"));
      if kick && !isAnonymous {
        Perform(SetGroupKick(fromGroup as int, fromQQ as int, false));
      }
      assert log == old(log) + GroupReply(body, fromGroup as int, fromQQ as int, fromAnonymous)
        + GroupKick(body, fromGroup as int, fromQQ as int, fromAnonymous);

      var ban := IsTrue(ObjectGet(body, "ban"));
      if ban {
        if isAnonymous {
          Perform(SetGroupAnonymousBan(fromGroup as int, fromAnonymous, BAN_SECONDS));
        } else {
          Perform(SetGroupBan(fromGroup as int, fromQQ as int, BAN_SECONDS));
        }
      }
    }

    /** __eventDiscussMsg */
    method DiscussMsg(subType: int32, sendTime: int32, fromDiscuss: int64, fromQQ: int64, msg: string,
                      font: int32) returns (d: Directive)
      modifies this
      ensures !(ShouldPost(config) && config.pattern(msg)) ==>
        d == Ignore && log == old(log) && deliveries == old(deliveries)
      ensures ShouldPost(config) && config.pattern(msg) ==>
        var payload := Payloads.DiscussMessage(sendTime as int, fromDiscuss as int, fromQQ as int, enhance(msg));
        var json := ResponseTo(payload).json;
        && deliveries == old(deliveries) + [DeliveryOf(payload)]
        && log == old(log) + Answered(json, r => DiscussMessageActions(r, fromDiscuss as int, fromQQ as int))
        && d == DirectiveOf(json)
    {
      d := Ignore;
      if ShouldPost(config) && config.pattern(msg) {
        var utf8Msg := enhance(msg);
        var json := Payloads.DiscussMessage(sendTime as int, fromDiscuss as int, fromQQ as int, utf8Msg);
        var response := PostEvent(json);
        if response.json.Some? {
          var body := response.json.value;
          var replyCstr := StringValue(ObjectGet(body, "reply"));
          var reply := if replyCstr.Some? then replyCstr.value else "";

          var atSenderJson := ObjectGet(body, "at_sender");
          var atSender := true;
          if IsBoolean(atSenderJson) && !BooleanValue(atSenderJson) {
            atSender := false;
          }
          if atSender {
            reply := AtPrefix(fromQQ as int) + reply;
          }

          if replyCstr.Some? {
            Perform(SendDiscussMsg(fromDiscuss as int, reply));
          }

          d := ReleaseResponse(body);
        }
      }
    }

    /** __eventSystem_GroupAdmin */
    method GroupAdmin(subType: int32, sendTime: int32, fromGroup: int64, beingOperateQQ: int64) returns (d: Directive)
      modifies this
      ensures log == old(log)
      ensures !ShouldPost(config) ==> d == Ignore && deliveries == old(deliveries)
      ensures ShouldPost(config) ==>
        var payload := Payloads.GroupAdmin(subType as int, sendTime as int, fromGroup as int, beingOperateQQ as int);
        deliveries == old(deliveries) + [DeliveryOf(payload)] && d == DirectiveOf(ResponseTo(payload).json)
    {
      d := Ignore;
      if ShouldPost(config) {
        var json := Payloads.GroupAdmin(subType as int, sendTime as int, fromGroup as int, beingOperateQQ as int);
        var response := PostEvent(json);
        if response.json.Some? {
          d := ReleaseResponse(response.json.value);
        }
      }
    }

    /** __eventSystem_GroupMemberDecrease */
    method GroupMemberDecrease(subType: int32, sendTime: int32, fromGroup: int64, fromQQ: int64,
                               beingOperateQQ: int64) returns (d: Directive)
      modifies this
      ensures log == old(log)
      ensures !ShouldPost(config) ==> d == Ignore && deliveries == old(deliveries)
      ensures ShouldPost(config) ==>
        var payload := Payloads.GroupMemberDecrease(subType as int, sendTime as int, fromGroup as int, fromQQ as int,
                                                    beingOperateQQ as int, loginQQ as int);
        deliveries == old(deliveries) + [DeliveryOf(payload)] && d == DirectiveOf(ResponseTo(payload).json)
    {
      d := Ignore;
      if ShouldPost(config) {
        var json := Payloads.GroupMemberDecrease(subType as int, sendTime as int, fromGroup as int, fromQQ as int,
                                                 beingOperateQQ as int, loginQQ as int);
        var response := PostEvent(json);
        if response.json.Some? {
          d := ReleaseResponse(response.json.value);
        }
      }
    }

    /** __eventSystem_GroupMemberIncrease */
    method GroupMemberIncrease(subType: int32, sendTime: int32, fromGroup: int64, fromQQ: int64,
                               beingOperateQQ: int64) returns (d: Directive)
      modifies this
      ensures log == old(log)
      ensures !ShouldPost(config) ==> d == Ignore && deliveries == old(deliveries)
      ensures ShouldPost(config) ==>
        var payload := Payloads.GroupMemberIncrease(subType as int, sendTime as int, fromGroup as int, fromQQ as int,
                                                    beingOperateQQ as int);
        deliveries == old(deliveries) + [DeliveryOf(payload)] && d == DirectiveOf(ResponseTo(payload).json)
    {
      d := Ignore;
      if ShouldPost(config) {
        var json := Payloads.GroupMemberIncrease(subType as int, sendTime as int, fromGroup as int, fromQQ as int,
                                                 beingOperateQQ as int);
        var response := PostEvent(json);
        if response.json.Some? {
          d := ReleaseResponse(response.json.value);
        }
      }
    }

    /** __eventFriend_Add */
    method FriendAdd(subType: int32, sendTime: int32, fromQQ: int64) returns (d: Directive)
      modifies this
      ensures log == old(log)
      ensures !ShouldPost(config) ==> d == Ignore && deliveries == old(deliveries)
      ensures ShouldPost(config) ==>
        var payload := Payloads.FriendAdded(sendTime as int, fromQQ as int);
        deliveries == old(deliveries) + [DeliveryOf(payload)] && d == DirectiveOf(ResponseTo(payload).json)
    {
      d := Ignore;
      if ShouldPost(config) {
        var json := Payloads.FriendAdded(sendTime as int, fromQQ as int);
        var response := PostEvent(json);
        if response.json.Some? {
          d := ReleaseResponse(response.json.value);
        }
      }
    }

    /** __eventRequest_AddFriend */
    method RequestAddFriend(subType: int32, sendTime: int32, fromQQ: int64, msg: string, responseFlag: string)
      returns (d: Directive)
      modifies this
      ensures !ShouldPost(config) ==> d == Ignore && log == old(log) && deliveries == old(deliveries)
      ensures ShouldPost(config) ==>
        var payload := Payloads.FriendRequest(sendTime as int, fromQQ as int, msg, responseFlag);
        var json := ResponseTo(payload).json;
        && deliveries == old(deliveries) + [DeliveryOf(payload)]
        && log == old(log) + Answered(json, r => FriendRequestActions(r, responseFlag))
        && d == DirectiveOf(json)
    {
      d := Ignore;
      if ShouldPost(config) {
        var json := Payloads.FriendRequest(sendTime as int, fromQQ as int, msg, responseFlag);
        var response := PostEvent(json);
        if response.json.Some? {
          var body := response.json.value;
          var approveJson := ObjectGet(body, "approve");
          if IsBoolean(approveJson) {
            var approve := BooleanValue(approveJson);
            var remarkCstr := StringValue(ObjectGet(body, "remark"));
            var remark := if remarkCstr.Some? then remarkCstr.value else "";
            Perform(SetFriendAddRequest(responseFlag, if approve then Allow else Deny, remark));
          }
          d := ReleaseResponse(body);
        }
      }
    }

    /** __eventRequest_AddGroup */
    method RequestAddGroup(subType: int32, sendTime: int32, fromGroup: int64, fromQQ: int64, msg: string,
                           responseFlag: string) returns (d: Directive)
      modifies this
      ensures !ShouldPost(config) ==> d == Ignore && log == old(log) && deliveries == old(deliveries)
      ensures ShouldPost(config) ==>
        var payload := Payloads.GroupRequest(subType as int, sendTime as int, fromGroup as int, fromQQ as int,
                                             msg, responseFlag);
        var json := ResponseTo(payload).json;
        && deliveries == old(deliveries) + [DeliveryOf(payload)]
        && log == old(log) + Answered(json, r => GroupRequestActions(r, responseFlag, subType as int))
        && d == DirectiveOf(json)
    {
      d := Ignore;
      if ShouldPost(config) {
        var json := Payloads.GroupRequest(subType as int, sendTime as int, fromGroup as int, fromQQ as int,
                                          msg, responseFlag);
        var response := PostEvent(json);
        if response.json.Some? {
          var body := response.json.value;
          var approveJson := ObjectGet(body, "approve");
          if IsBoolean(approveJson) {
            var approve := BooleanValue(approveJson);
            var reasonCstr := StringValue(ObjectGet(body, "reason"));
            if reasonCstr.None? {
              reasonCstr := StringValue(ObjectGet(body, "remark"));
            }
            var remark := if reasonCstr.Some? then reasonCstr.value else "";
            Perform(SetGroupAddRequest(responseFlag, subType as int, if approve then Allow else Deny, remark));
          }
          d := ReleaseResponse(body);
        }
      }
    }
  }
}

=== FILE: interpreter.dfy ===
/**
 * The response interpreter: from the JSON document a webhook consumer sends
 * back, the platform actions a handler performs and the directive it returns
 * to the host.
 */
module Interpreter {
  import opened Wrappers
  import opened Json
  import Text

  /** EVENT_BLOCK stops the host from passing the event to other plugins; EVENT_IGNORE lets it go on. */
  datatype Directive = Block | Ignore

  /** REQUEST_ALLOW or REQUEST_DENY. */
  datatype RequestAnswer = Allow | Deny

  /**
   * The platform primitives a handler calls. Text is recorded before its
   * conversion to the host's legacy encoding. A private reply's text is
   * what json_string_value returned: nothing when `reply` is not a string.
   */
  datatype Action =
    | SendPrivateMsg(userId: int, privateText: Option<string>)
    | SendGroupMsg(groupId: int, text: string)
    | SendDiscussMsg(discussId: int, text: string)
    | SetGroupKick(groupId: int, userId: int, rejectAddRequest: bool)
    | SetGroupBan(groupId: int, userId: int, seconds: int)
    | SetGroupAnonymousBan(groupId: int, anonymousFlag: string, seconds: int)
    | SetFriendAddRequest(flag: string, answer: RequestAnswer, remark: string)
    | SetGroupAddRequest(flag: string, subType: int, answer: RequestAnswer, reason: string)

  /** A group ban lasts thirty minutes. */
  const BAN_SECONDS: int := 30 * 60

  predicate IsBan(a: Action)
  {
    a.SetGroupBan? || a.SetGroupAnonymousBan?
  }

  /** release_response: block exactly when the document's `block` member is the JSON literal true. */
  function ReleaseResponse(response: Json): (d: Directive)
    ensures d == Block <==> response.JObject? && "block" in response.fields && response.fields["block"] == JBool(true)
  {
    if IsTrue(ObjectGet(response, "block")) then Block else Ignore
  }

  /** The directive of a handler that posted: ignore when no document came back. */
  function DirectiveOf(response: Option<Json>): (d: Directive)
    ensures response.None? ==> d == Ignore
    ensures response.Some? ==> d == ReleaseResponse(response.value)
  {
    if response.Some? then ReleaseResponse(response.value) else Ignore
  }

  /** Private message: reply whenever `reply` is present and not null. */
  function PrivateMessageActions(response: Json, fromQQ: int): (acts: seq<Action>)
    ensures |acts| <= 1
    ensures |acts| == 1 <==> ObjectGet(response, "reply").Some? && ObjectGet(response, "reply") != Some(JNull)
    ensures |acts| == 1 ==> acts[0].SendPrivateMsg? && acts[0].userId == fromQQ
    ensures |acts| == 1 ==> (acts[0].privateText.Some? <==> response.fields["reply"].JString?)
    ensures |acts| == 1 && acts[0].privateText.Some? ==> JString(acts[0].privateText.value) == response.fields["reply"]
  {
    var reply := ObjectGet(response, "reply");
    if reply.Some? && !IsNull(reply) then [SendPrivateMsg(fromQQ, StringValue(reply))] else []
  }

  /** The mention marker put in front of a reply to `qq`. */
  function AtPrefix(qq: int): (p: string)
    ensures |p| > 12 && p[..10] == "[CQ:at,qq=" && p[|p| - 2..] == "] "
    ensures qq < 0 <==> p[10] == '-'
  {
    "[CQ:at,qq=" + Text.Itos(qq) + "] "
  }

  /** The sender's id can be read back from its mention marker, so distinct senders get distinct markers. */
  lemma {:induction false} AtPrefixNamesSender(qq: int)
    ensures |AtPrefix(qq)| > 12
    ensures AtPrefix(qq)[..10] == "[CQ:at,qq="
    ensures Text.ParseDecimal(AtPrefix(qq)[10..|AtPrefix(qq)| - 2]) == Some(qq)
    ensures forall other :: AtPrefix(other) == AtPrefix(qq) ==> other == qq
  {
    var p := AtPrefix(qq);
    assert p[10..|p| - 2] == Text.Itos(qq);
    Text.ParseDecimalItos(qq);
    forall other | AtPrefix(other) == AtPrefix(qq)
      ensures other == qq
    {
      var o := AtPrefix(other);
      assert o[10..|o| - 2] == Text.Itos(other);
      Text.ParseDecimalItos(other);
    }
  }

  /** at_sender holds unless the document carries the boolean false there. */
  predicate AtSender(response: Json): (at: bool)
    ensures !at <==> ObjectGet(response, "at_sender") == Some(JBool(false))
  {
    var v := ObjectGet(response, "at_sender");
    !(IsBoolean(v) && !BooleanValue(v))
  }

  /**
   * The text of a group or discussion reply: only a string `reply` is sent;
   * it is prefixed with the sender's mention marker when at_sender holds and
   * the sender can be mentioned.
   */
  function ReplyText(response: Json, fromQQ: int, mentionable: bool): (text: Option<string>)
    ensures text.Some? <==> ObjectGet(response, "reply").Some? && response.fields["reply"].JString?
    ensures text.Some? && mentionable && ObjectGet(response, "at_sender") != Some(JBool(false)) ==>
      text.value == AtPrefix(fromQQ) + response.fields["reply"].s
    ensures text.Some? && (!mentionable || ObjectGet(response, "at_sender") == Some(JBool(false))) ==>
      text.value == response.fields["reply"].s
  {
    var replyCstr := StringValue(ObjectGet(response, "reply"));
    var reply := if replyCstr.Some? then replyCstr.value else "";
    var reply := if AtSender(response) && mentionable then AtPrefix(fromQQ) + reply else reply;
    if replyCstr.Some? then Some(reply) else None
  }

  /** The reply part of a group message: a send iff `reply` is a string, with the marker unless the sender is anonymous. */
  function GroupReply(response: Json, fromGroup: int, fromQQ: int, fromAnonymous: string): (acts: seq<Action>)
    ensures |acts| <= 1
    ensures |acts| == 1 <==> StringValue(ObjectGet(response, "reply")).Some?
    ensures |acts| == 1 ==> acts[0] == SendGroupMsg(fromGroup, ReplyText(response, fromQQ, fromAnonymous == "").value)
  {
    var reply := ReplyText(response, fromQQ, |fromAnonymous| == 0);
    if reply.Some? then [SendGroupMsg(fromGroup, reply.value)] else []
  }

  /** The kick part: only the literal true kicks, and never an anonymous sender. */
  function GroupKick(response: Json, fromGroup: int, fromQQ: int, fromAnonymous: string): (acts: seq<Action>)
    ensures |acts| <= 1
    ensures |acts| == 1 <==> IsTrue(ObjectGet(response, "kick")) && fromAnonymous == ""
    ensures |acts| == 1 ==> acts[0] == SetGroupKick(fromGroup, fromQQ, false)
  {
    if IsTrue(ObjectGet(response, "kick")) && |fromAnonymous| == 0 then [SetGroupKick(fromGroup, fromQQ, false)] else []
  }

  /** The ban part: only the literal true bans, for thirty minutes, through the primitive that fits the sender. */
  function GroupBan(response: Json, fromGroup: int, fromQQ: int, fromAnonymous: string): (acts: seq<Action>)
    ensures |acts| <= 1
    ensures |acts| == 1 <==> IsTrue(ObjectGet(response, "ban"))
    ensures |acts| == 1 ==> IsBan(acts[0]) && acts[0].seconds == BAN_SECONDS && acts[0].groupId == fromGroup
    ensures |acts| == 1 && fromAnonymous != "" ==> acts[0] == SetGroupAnonymousBan(fromGroup, fromAnonymous, BAN_SECONDS)
    ensures |acts| == 1 && fromAnonymous == "" ==> acts[0] == SetGroupBan(fromGroup, fromQQ, BAN_SECONDS)
  {
    if IsTrue(ObjectGet(response, "ban")) then
      [if |fromAnonymous| > 0 then SetGroupAnonymousBan(fromGroup, fromAnonymous, BAN_SECONDS)
       else SetGroupBan(fromGroup, fromQQ, BAN_SECONDS)]
    else []
  }

  /** Group message: the reply, then the kick, then the ban. */
  function GroupMessageActions(response: Json, fromGroup: int, fromQQ: int, fromAnonymous: string): (acts: seq<Action>)
    ensures |acts| <= 3
    ensures acts == [] <==>
      && StringValue(ObjectGet(response, "reply")).None?
      && !(IsTrue(ObjectGet(response, "kick")) && fromAnonymous == "")
      && !IsTrue(ObjectGet(response, "ban"))
    ensures |acts| == 3 ==> acts[0].SendGroupMsg? && acts[1].SetGroupKick? && acts[2].SetGroupBan?
  {
    GroupReply(response, fromGroup, fromQQ, fromAnonymous)
    + GroupKick(response, fromGroup, fromQQ, fromAnonymous)
    + GroupBan(response, fromGroup, fromQQ, fromAnonymous)
  }

  /** Where each part of a group message's actions sits in the whole list. */
  lemma GroupMessagePositions(response: Json, fromGroup: int, fromQQ: int, fromAnonymous: string)
    ensures var acts := GroupMessageActions(response, fromGroup, fromQQ, fromAnonymous);
      var sends := GroupReply(response, fromGroup, fromQQ, fromAnonymous);
      var kicks := GroupKick(response, fromGroup, fromQQ, fromAnonymous);
      var bans := GroupBan(response, fromGroup, fromQQ, fromAnonymous);
      && |acts| == |sends| + |kicks| + |bans|
      && (forall i :: 0 <= i < |sends| ==> acts[i] == sends[i])
      && (forall i :: 0 <= i < |kicks| ==> acts[|sends| + i] == kicks[i])
      && (forall i :: 0 <= i < |bans| ==> acts[|sends| + |kicks| + i] == bans[i])
  {
  }

  /** The content part of GroupMessageActionsSpec. */
  lemma {:induction false} GroupMessageActionsContent(response: Json, fromGroup: int, fromQQ: int, fromAnonymous: string)
    ensures var acts := GroupMessageActions(response, fromGroup, fromQQ, fromAnonymous);
      && (forall i :: 0 <= i < |acts| ==> acts[i].SendGroupMsg? || acts[i].SetGroupKick? || IsBan(acts[i]))
      && ((exists i :: 0 <= i < |acts| && acts[i].SendGroupMsg?) <==> StringValue(ObjectGet(response, "reply")).Some?)
      && ((exists i :: 0 <= i < |acts| && acts[i].SetGroupKick?) <==> IsTrue(ObjectGet(response, "kick")) && fromAnonymous == "")
      && ((exists i :: 0 <= i < |acts| && IsBan(acts[i])) <==> IsTrue(ObjectGet(response, "ban")))
      && (forall i :: 0 <= i < |acts| && acts[i].SendGroupMsg? ==>
            i == 0 && acts[i] == SendGroupMsg(fromGroup, ReplyText(response, fromQQ, fromAnonymous == "").value))
      && (forall i :: 0 <= i < |acts| && acts[i].SetGroupKick? ==> acts[i] == SetGroupKick(fromGroup, fromQQ, false))
      && (forall i :: 0 <= i < |acts| && IsBan(acts[i]) ==>
            && acts[i].seconds == BAN_SECONDS && acts[i].groupId == fromGroup
            && (acts[i].SetGroupAnonymousBan? <==> fromAnonymous != "")
            && (acts[i].SetGroupAnonymousBan? ==> acts[i].anonymousFlag == fromAnonymous)
            && (acts[i].SetGroupBan? ==> acts[i].userId == fromQQ))
  {
    GroupMessagePositions(response, fromGroup, fromQQ, fromAnonymous);
  }

  /** The uniqueness and order part of GroupMessageActionsSpec. */
  lemma {:induction false} GroupMessageActionsOrder(response: Json, fromGroup: int, fromQQ: int, fromAnonymous: string)
    ensures var acts := GroupMessageActions(response, fromGroup, fromQQ, fromAnonymous);
      && (forall i, j :: 0 <= i < |acts| && 0 <= j < |acts| && IsBan(acts[i]) && IsBan(acts[j]) ==> i == j)
      && (forall i, j :: 0 <= i < |acts| && 0 <= j < |acts| && acts[i].SetGroupKick? && acts[j].SetGroupKick? ==> i == j)
      && (forall i, j :: 0 <= i < |acts| && 0 <= j < |acts| && acts[i].SetGroupKick? && IsBan(acts[j]) ==> i < j)
  {
    GroupMessagePositions(response, fromGroup, fromQQ, fromAnonymous);
  }

  /**
   * What a group message's actions are, call by call: a send iff `reply` is
   * a string, and first; a kick iff kick is true and the sender is not
   * anonymous; one ban iff ban is true, after any kick, lasting thirty
   * minutes, anonymous exactly when the sender is.
   */
  lemma {:induction false} GroupMessageActionsSpec(response: Json, fromGroup: int, fromQQ: int, fromAnonymous: string)
    ensures var acts := GroupMessageActions(response, fromGroup, fromQQ, fromAnonymous);
      && (forall i :: 0 <= i < |acts| ==> acts[i].SendGroupMsg? || acts[i].SetGroupKick? || IsBan(acts[i]))
      && ((exists i :: 0 <= i < |acts| && acts[i].SendGroupMsg?) <==> StringValue(ObjectGet(response, "reply")).Some?)
      && ((exists i :: 0 <= i < |acts| && acts[i].SetGroupKick?) <==> IsTrue(ObjectGet(response, "kick")) && fromAnonymous == "")
      && ((exists i :: 0 <= i < |acts| && IsBan(acts[i])) <==> IsTrue(ObjectGet(response, "ban")))
      && (forall i :: 0 <= i < |acts| && acts[i].SendGroupMsg? ==>
            i == 0 && acts[i] == SendGroupMsg(fromGroup, ReplyText(response, fromQQ, fromAnonymous == "").value))
      && (forall i :: 0 <= i < |acts| && acts[i].SetGroupKick? ==> acts[i] == SetGroupKick(fromGroup, fromQQ, false))
      && (forall i :: 0 <= i < |acts| && IsBan(acts[i]) ==>
            && acts[i].seconds == BAN_SECONDS && acts[i].groupId == fromGroup
            && (acts[i].SetGroupAnonymousBan? <==> fromAnonymous != "")
            && (acts[i].SetGroupAnonymousBan? ==> acts[i].anonymousFlag == fromAnonymous)
            && (acts[i].SetGroupBan? ==> acts[i].userId == fromQQ))
      && (forall i, j :: 0 <= i < |acts| && 0 <= j < |acts| && IsBan(acts[i]) && IsBan(acts[j]) ==> i == j)
      && (forall i, j :: 0 <= i < |acts| && 0 <= j < |acts| && acts[i].SetGroupKick? && acts[j].SetGroupKick? ==> i == j)
      && (forall i, j :: 0 <= i < |acts| && 0 <= j < |acts| && acts[i].SetGroupKick? && IsBan(acts[j]) ==> i < j)
  {
    GroupMessageActionsContent(response, fromGroup, fromQQ, fromAnonymous);
    GroupMessageActionsOrder(response, fromGroup, fromQQ, fromAnonymous);
  }

  /** Discussion message: only the reply, mentioning the sender when at_sender holds; kick and ban are not read. */
  function DiscussMessageActions(response: Json, fromDiscuss: int, fromQQ: int): (acts: seq<Action>)
    ensures |acts| <= 1
    ensures |acts| == 1 <==> StringValue(ObjectGet(response, "reply")).Some?
    ensures |acts| == 1 ==> acts[0] == SendDiscussMsg(fromDiscuss, ReplyText(response, fromQQ, true).value)
  {
    var reply := ReplyText(response, fromQQ, true);
    if reply.Some? then [SendDiscussMsg(fromDiscuss, reply.value)] else []
  }

  /** The answer a request gets: only a JSON boolean `approve` decides one. */
  function Answer(response: Json): (a: Option<RequestAnswer>)
    ensures a == Some(Allow) <==> ObjectGet(response, "approve") == Some(JBool(true))
    ensures a == Some(Deny) <==> ObjectGet(response, "approve") == Some(JBool(false))
  {
    var approve := ObjectGet(response, "approve");
    if IsBoolean(approve) then Some(if BooleanValue(approve) then Allow else Deny) else None
  }

  /** The text a string member holds, or "" when it is absent or not a string. */
  function TextOr(response: Json, key: string): (t: string)
    ensures StringValue(ObjectGet(response, key)).Some? ==> t == response.fields[key].s
    ensures StringValue(ObjectGet(response, key)).None? ==> t == ""
  {
    var v := StringValue(ObjectGet(response, key));
    if v.Some? then v.value else ""
  }

  /** A group request's reason: `reason` when it is a string, else `remark`, else "". */
  function GroupRequestReason(response: Json): (reason: string)
    ensures StringValue(ObjectGet(response, "reason")).Some? ==> reason == response.fields["reason"].s
    ensures StringValue(ObjectGet(response, "reason")).None? && StringValue(ObjectGet(response, "remark")).Some? ==>
      reason == response.fields["remark"].s
    ensures StringValue(ObjectGet(response, "reason")).None? && StringValue(ObjectGet(response, "remark")).None? ==>
      reason == ""
  {
    var reasonCstr := StringValue(ObjectGet(response, "reason"));
    var reasonCstr := if reasonCstr.None? then StringValue(ObjectGet(response, "remark")) else reasonCstr;
    if reasonCstr.Some? then reasonCstr.value else ""
  }

  /** Friend request: answer it when `approve` is a boolean, with `remark` as the remark. */
  function FriendRequestActions(response: Json, flag: string): (acts: seq<Action>)
    ensures |acts| <= 1
    ensures |acts| == 1 <==> IsBoolean(ObjectGet(response, "approve"))
    ensures |acts| == 1 ==> acts[0] == SetFriendAddRequest(flag, Answer(response).value, TextOr(response, "remark"))
  {
    var answer := Answer(response);
    if answer.Some? then [SetFriendAddRequest(flag, answer.value, TextOr(response, "remark"))] else []
  }

  /** Group request: answer it when `approve` is a boolean, passing the request's sub_type through. */
  function GroupRequestActions(response: Json, flag: string, subType: int): (acts: seq<Action>)
    ensures |acts| <= 1
    ensures |acts| == 1 <==> IsBoolean(ObjectGet(response, "approve"))
    ensures |acts| == 1 ==> acts[0] == SetGroupAddRequest(flag, subType, Answer(response).value, GroupRequestReason(response))
  {
    var answer := Answer(response);
    if answer.Some? then [SetGroupAddRequest(flag, subType, answer.value, GroupRequestReason(response))] else []
  }

  /** Only the literal true blocks; truthy numbers and strings, an empty document or a non-object let the event through. */
  lemma BlockIsStrict()
    ensures ReleaseResponse(JObject(map["block" := JBool(true)])) == Block
    ensures ReleaseResponse(JObject(map["block" := JInteger(1)])) == Ignore
    ensures ReleaseResponse(JObject(map["block" := JString("true")])) == Ignore
    ensures ReleaseResponse(JObject(map[])) == Ignore
    ensures ReleaseResponse(JArray([JBool(true)])) == Ignore
    ensures DirectiveOf(None) == Ignore
  {
  }

  /** at_sender defaults to true; only the boolean false, or an anonymous sender, drops the marker. */
  lemma AtSenderExamples(qq: int)
    ensures ReplyText(JObject(map["reply" := JString("hi"), "at_sender" := JBool(false)]), qq, true) == Some("hi")
    ensures ReplyText(JObject(map["reply" := JString("hi")]), qq, true) == Some(AtPrefix(qq) + "hi")
    ensures ReplyText(JObject(map["reply" := JString("hi"), "at_sender" := JInteger(0)]), qq, true) == Some(AtPrefix(qq) + "hi")
    ensures ReplyText(JObject(map["reply" := JString("hi")]), qq, false) == Some("hi")
    ensures ReplyText(JObject(map["reply" := JInteger(1)]), qq, true) == None
  {
  }

  /** A group request takes `reason` and falls back to `remark`; a friend request reads `remark` alone. */
  lemma RemarkExamples(flag: string)
    ensures GroupRequestActions(JObject(map["approve" := JBool(false), "reason" := JString("no")]), flag, 1)
      == [SetGroupAddRequest(flag, 1, Deny, "no")]
    ensures GroupRequestActions(JObject(map["approve" := JBool(false), "remark" := JString("no")]), flag, 1)
      == [SetGroupAddRequest(flag, 1, Deny, "no")]
    ensures FriendRequestActions(JObject(map["approve" := JBool(false), "remark" := JString("no")]), flag)
      == [SetFriendAddRequest(flag, Deny, "no")]
    ensures FriendRequestActions(JObject(map["approve" := JBool(false), "reason" := JString("no")]), flag)
      == [SetFriendAddRequest(flag, Deny, "")]
    ensures FriendRequestActions(JObject(map["approve" := JInteger(1)]), flag) == []
  {
  }

  /** A private message reads `reply` alone: kick, ban and at_sender change nothing. */
  lemma PrivateReadsOnlyReply(a: Json, b: Json, fromQQ: int)
    requires ObjectGet(a, "reply") == ObjectGet(b, "reply")
    ensures PrivateMessageActions(a, fromQQ) == PrivateMessageActions(b, fromQQ)
  {
  }

  /** A discussion message reads `reply` and `at_sender` alone: kick and ban change nothing. */
  lemma DiscussReadsOnlyReply(a: Json, b: Json, fromDiscuss: int, fromQQ: int)
    requires ObjectGet(a, "reply") == ObjectGet(b, "reply") && ObjectGet(a, "at_sender") == ObjectGet(b, "at_sender")
    ensures DiscussMessageActions(a, fromDiscuss, fromQQ) == DiscussMessageActions(b, fromDiscuss, fromQQ)
  {
  }
}

=== FILE: ints.dfy ===
/** The host's fixed-width integers: int32_t for codes and times, int64_t for account and group numbers. */
module Ints {
  predicate IsInt32(n: int)
  {
    -0x8000_0000 <= n < 0x8000_0000
  }

  predicate IsInt64(n: int)
  {
    -0x8000_0000_0000_0000 <= n < 0x8000_0000_0000_0000
  }

  newtype int32 = x: int | IsInt32(x)
  newtype int64 = x: int | IsInt64(x)
}

=== FILE: json.dfy ===
/** The JSON values the bridge reads, and the few jansson accessors the core relies on. */
module Json {
  import opened Wrappers

  datatype Json =
    | JNull
    | JBool(b: bool)
    | JInteger(i: int)
    | JReal(r: real)
    | JString(s: string)
    | JArray(items: seq<Json>)
    | JObject(fields: map<string, Json>)

  /** json_object_get: the member stored under `key`; nothing when `j` is not an object or lacks the key. */
  function ObjectGet(j: Json, key: string): Option<Json>
  {
    if j.JObject? && key in j.fields then Some(j.fields[key]) else None
  }

  /** json_is_true: only the literal boolean true, never a merely truthy value. */
  predicate IsTrue(v: Option<Json>)
  {
    v == Some(JBool(true))
  }

  /** json_is_boolean */
  predicate IsBoolean(v: Option<Json>)
  {
    v.Some? && v.value.JBool?
  }

  /** json_boolean_value, which jansson defines as json_is_true. */
  predicate BooleanValue(v: Option<Json>)
  {
    IsTrue(v)
  }

  /** json_is_null */
  predicate IsNull(v: Option<Json>)
  {
    v == Some(JNull)
  }

  /** json_string_value: the text of a JSON string; nothing (a NULL pointer) for anything else. */
  function StringValue(v: Option<Json>): Option<string>
  {
    if v.Some? && v.value.JString? then Some(v.value.s) else None
  }
}

=== FILE: labels.dfy ===
/**
 * The sub_type switches of the event handlers: each numeric code the host
 * passes becomes a fixed lower-case tag in the outbound payload, and every
 * code outside a table becomes "unknown". The private, admin, increase and
 * group-request tables come with their inverse, the reading a webhook
 * consumer makes of the label; the decrease table has none, because two
 * codes give "kick_me".
 */
module Labels {
  import opened Wrappers

  const UNKNOWN: string := "unknown"

  /** Private message: 11 from a friend, 1 from online status, 2 from a group, 3 from a discussion. */
  function PrivateSubType(code: int): (tag: string)
    ensures tag == UNKNOWN <==> code !in {11, 1, 2, 3}
    ensures tag in {"friend", "other", "group", "discuss", UNKNOWN}
  {
    match code
    case 11 => "friend"
    case 1 => "other"
    case 2 => "group"
    case 3 => "discuss"
    case _ => UNKNOWN
  }

  function PrivateSubTypeCode(tag: string): (code: Option<int>)
    ensures code.Some? <==> tag in {"friend", "other", "group", "discuss"}
    ensures code.Some? ==> PrivateSubType(code.value) == tag
    ensures forall c :: PrivateSubType(c) == tag && tag != UNKNOWN ==> code == Some(c)
  {
    match tag
    case "friend" => Some(11)
    case "other" => Some(1)
    case "group" => Some(2)
    case "discuss" => Some(3)
    case _ => None
  }

  /** Group administrator change: 1 the role was removed, 2 it was granted. */
  function GroupAdminSubType(code: int): (tag: string)
    ensures tag == UNKNOWN <==> code !in {1, 2}
    ensures tag in {"unset", "set", UNKNOWN}
  {
    match code
    case 1 => "unset"
    case 2 => "set"
    case _ => UNKNOWN
  }

  function GroupAdminSubTypeCode(tag: string): (code: Option<int>)
    ensures code.Some? <==> tag in {"unset", "set"}
    ensures code.Some? ==> GroupAdminSubType(code.value) == tag
    ensures forall c :: GroupAdminSubType(c) == tag && tag != UNKNOWN ==> code == Some(c)
  {
    match tag
    case "unset" => Some(1)
    case "set" => Some(2)
    case _ => None
  }

  /** Group member increase: 1 an administrator approved, 2 an administrator invited. */
  function GroupIncreaseSubType(code: int): (tag: string)
    ensures tag == UNKNOWN <==> code !in {1, 2}
    ensures tag in {"approve", "invite", UNKNOWN}
  {
    match code
    case 1 => "approve"
    case 2 => "invite"
    case _ => UNKNOWN
  }

  function GroupIncreaseSubTypeCode(tag: string): (code: Option<int>)
    ensures code.Some? <==> tag in {"approve", "invite"}
    ensures code.Some? ==> GroupIncreaseSubType(code.value) == tag
    ensures forall c :: GroupIncreaseSubType(c) == tag && tag != UNKNOWN ==> code == Some(c)
  {
    match tag
    case "approve" => Some(1)
    case "invite" => Some(2)
    case _ => None
  }

  /** Group add request: 1 someone asks to join, 2 the logged-in account is invited. */
  function GroupRequestSubType(code: int): (tag: string)
    ensures tag == UNKNOWN <==> code !in {1, 2}
    ensures tag in {"add", "invite", UNKNOWN}
  {
    match code
    case 1 => "add"
    case 2 => "invite"
    case _ => UNKNOWN
  }

  function GroupRequestSubTypeCode(tag: string): (code: Option<int>)
    ensures code.Some? <==> tag in {"add", "invite"}
    ensures code.Some? ==> GroupRequestSubType(code.value) == tag
    ensures forall c :: GroupRequestSubType(c) == tag && tag != UNKNOWN ==> code == Some(c)
  {
    match tag
    case "add" => Some(1)
    case "invite" => Some(2)
    case _ => None
  }

  /**
   * Group member decrease: 1 the member left, 2 the member was kicked, 3 the
   * logged-in account was kicked. Code 2 falls through to the label of code 3
   * when the member removed is the logged-in account itself.
   */
  function GroupDecreaseSubType(code: int, beingOperateQQ: int, loginQQ: int): (tag: string)
    ensures tag == "leave" <==> code == 1
    ensures tag == "kick" <==> code == 2 && beingOperateQQ != loginQQ
    ensures tag == "kick_me" <==> code == 3 || (code == 2 && beingOperateQQ == loginQQ)
    ensures tag == UNKNOWN <==> code !in {1, 2, 3}
  {
    match code
    case 1 => "leave"
    case 2 => if beingOperateQQ != loginQQ then "kick" else "kick_me"
    case 3 => "kick_me"
    case _ => UNKNOWN
  }

  /** The operator of a member decrease: the member itself when it left, the acting account otherwise. */
  function GroupDecreaseOperator(code: int, fromQQ: int, beingOperateQQ: int): (operator: int)
    ensures forall loginQQ :: GroupDecreaseSubType(code, beingOperateQQ, loginQQ) == "leave" ==> operator == beingOperateQQ
    ensures code != 1 ==> operator == fromQQ
  {
    if code == 1 then beingOperateQQ else fromQQ
  }
}

=== FILE: payloads.dfy ===
/**
 * The outbound webhook documents, one JSON object per event kind, as the
 * handlers pack them. Numbers are the host's integer arguments, text is the
 * message after decoding and markup enhancement.
 */
module Payloads {
  import opened Wrappers
  import opened Json
  import Labels

  type Payload = map<string, Json>

  /** The event kinds a consumer tells apart. */
  datatype EventKind =
    | PrivateMessageKind | GroupMessageKind | DiscussMessageKind
    | GroupAdminKind | GroupDecreaseKind | GroupIncreaseKind | FriendAddedKind
    | FriendRequestKind | GroupRequestKind

  /** The text of a string member, or "" when it is absent or not a string. */
  function Field(p: Payload, key: string): string
  {
    if key in p && p[key].JString? then p[key].s else ""
  }

  /** A consumer's reading of a payload: its post_type, then the discriminator that goes with it. */
  function KindOf(p: Payload): Option<EventKind>
  {
    var post := Field(p, "post_type");
    if post == "message" then
      var t := Field(p, "message_type");
      if t == "private" then Some(PrivateMessageKind)
      else if t == "group" then Some(GroupMessageKind)
      else if t == "discuss" then Some(DiscussMessageKind)
      else None
    else if post == "event" then
      var t := Field(p, "event");
      if t == "group_admin" then Some(GroupAdminKind)
      else if t == "group_decrease" then Some(GroupDecreaseKind)
      else if t == "group_increase" then Some(GroupIncreaseKind)
      else if t == "friend_added" then Some(FriendAddedKind)
      else None
    else if post == "request" then
      var t := Field(p, "request_type");
      if t == "friend" then Some(FriendRequestKind)
      else if t == "group" then Some(GroupRequestKind)
      else None
    else None
  }

  /** Every payload has a kind a consumer recognises and carries the event time as an integer. */
  predicate WellFormed(p: Payload)
  {
    KindOf(p).Some? && "time" in p && p["time"].JInteger?
  }

  function PrivateMessage(subType: int, time: int, userId: int, message: string): (p: Payload)
    ensures WellFormed(p)
    ensures p.Keys == {"post_type", "message_type", "sub_type", "time", "user_id", "message"}
    ensures KindOf(p) == Some(PrivateMessageKind) && p["time"] == JInteger(time)
    ensures p["sub_type"] == JString(Labels.PrivateSubType(subType))
    ensures p["user_id"] == JInteger(userId) && p["message"] == JString(message)
  {
    map[
      "post_type" := JString("message"),
      "message_type" := JString("private"),
      "sub_type" := JString(Labels.PrivateSubType(subType)),
      "time" := JInteger(time),
      "user_id" := JInteger(userId),
      "message" := JString(message)]
  }

  function GroupMessage(time: int, groupId: int, userId: int, anonymous: string, anonymousFlag: string, message: string): (p: Payload)
    ensures WellFormed(p)
    ensures p.Keys == {"post_type", "message_type", "time", "group_id", "user_id", "anonymous", "anonymous_flag", "message"}
    ensures KindOf(p) == Some(GroupMessageKind) && p["time"] == JInteger(time)
    ensures p["anonymous"] == JString(anonymous) && p["anonymous_flag"] == JString(anonymousFlag)
    ensures p["message"] == JString(message)
    ensures p["group_id"] == JInteger(groupId) && p["user_id"] == JInteger(userId)
  {
    map[
      "post_type" := JString("message"),
      "message_type" := JString("group"),
      "time" := JInteger(time),
      "group_id" := JInteger(groupId),
      "user_id" := JInteger(userId),
      "anonymous" := JString(anonymous),
      "anonymous_flag" := JString(anonymousFlag),
      "message" := JString(message)]
  }

  function DiscussMessage(time: int, discussId: int, userId: int, message: string): (p: Payload)
    ensures WellFormed(p)
    ensures p.Keys == {"post_type", "message_type", "time", "discuss_id", "user_id", "message"}
    ensures KindOf(p) == Some(DiscussMessageKind) && p["time"] == JInteger(time)
    ensures p["message"] == JString(message)
    ensures p["discuss_id"] == JInteger(discussId) && p["user_id"] == JInteger(userId)
  {
    map[
      "post_type" := JString("message"),
      "message_type" := JString("discuss"),
      "time" := JInteger(time),
      "discuss_id" := JInteger(discussId),
      "user_id" := JInteger(userId),
      "message" := JString(message)]
  }

  function GroupAdmin(subType: int, time: int, groupId: int, beingOperateQQ: int): (p: Payload)
    ensures WellFormed(p)
    ensures p.Keys == {"post_type", "event", "sub_type", "time", "group_id", "user_id"}
    ensures KindOf(p) == Some(GroupAdminKind) && p["time"] == JInteger(time)
    ensures p["sub_type"] == JString(Labels.GroupAdminSubType(subType))
    ensures p["user_id"] == JInteger(beingOperateQQ)
    ensures p["group_id"] == JInteger(groupId)
  {
    map[
      "post_type" := JString("event"),
      "event" := JString("group_admin"),
      "sub_type" := JString(Labels.GroupAdminSubType(subType)),
      "time" := JInteger(time),
      "group_id" := JInteger(groupId),
      "user_id" := JInteger(beingOperateQQ)]
  }

  function GroupMemberDecrease(subType: int, time: int, groupId: int, fromQQ: int, beingOperateQQ: int, loginQQ: int): (p: Payload)
    ensures WellFormed(p)
    ensures p.Keys == {"post_type", "event", "sub_type", "time", "group_id", "operator_id", "user_id"}
    ensures KindOf(p) == Some(GroupDecreaseKind) && p["time"] == JInteger(time)
    ensures p["sub_type"] == JString(Labels.GroupDecreaseSubType(subType, beingOperateQQ, loginQQ))
    ensures p["operator_id"] == JInteger(if subType == 1 then beingOperateQQ else fromQQ)
    ensures p["user_id"] == JInteger(beingOperateQQ)
    ensures p["group_id"] == JInteger(groupId)
  {
    map[
      "post_type" := JString("event"),
      "event" := JString("group_decrease"),
      "sub_type" := JString(Labels.GroupDecreaseSubType(subType, beingOperateQQ, loginQQ)),
      "time" := JInteger(time),
      "group_id" := JInteger(groupId),
      "operator_id" := JInteger(Labels.GroupDecreaseOperator(subType, fromQQ, beingOperateQQ)),
      "user_id" := JInteger(beingOperateQQ)]
  }

  function GroupMemberIncrease(subType: int, time: int, groupId: int, fromQQ: int, beingOperateQQ: int): (p: Payload)
    ensures WellFormed(p)
    ensures p.Keys == {"post_type", "event", "sub_type", "time", "group_id", "operator_id", "user_id"}
    ensures KindOf(p) == Some(GroupIncreaseKind) && p["time"] == JInteger(time)
    ensures p["sub_type"] == JString(Labels.GroupIncreaseSubType(subType))
    ensures p["operator_id"] == JInteger(fromQQ) && p["user_id"] == JInteger(beingOperateQQ)
    ensures p["group_id"] == JInteger(groupId)
  {
    map[
      "post_type" := JString("event"),
      "event" := JString("group_increase"),
      "sub_type" := JString(Labels.GroupIncreaseSubType(subType)),
      "time" := JInteger(time),
      "group_id" := JInteger(groupId),
      "operator_id" := JInteger(fromQQ),
      "user_id" := JInteger(beingOperateQQ)]
  }

  function FriendAdded(time: int, userId: int): (p: Payload)
    ensures WellFormed(p)
    ensures p.Keys == {"post_type", "event", "time", "user_id"}
    ensures KindOf(p) == Some(FriendAddedKind) && p["time"] == JInteger(time)
    ensures p["user_id"] == JInteger(userId)
  {
    map[
      "post_type" := JString("event"),
      "event" := JString("friend_added"),
      "time" := JInteger(time),
      "user_id" := JInteger(userId)]
  }

  function FriendRequest(time: int, userId: int, message: string, flag: string): (p: Payload)
    ensures WellFormed(p)
    ensures p.Keys == {"post_type", "request_type", "time", "user_id", "message", "flag"}
    ensures KindOf(p) == Some(FriendRequestKind) && p["time"] == JInteger(time)
    ensures p["flag"] == JString(flag)
    ensures p["user_id"] == JInteger(userId) && p["message"] == JString(message)
  {
    map[
      "post_type" := JString("request"),
      "request_type" := JString("friend"),
      "time" := JInteger(time),
      "user_id" := JInteger(userId),
      "message" := JString(message),
      "flag" := JString(flag)]
  }

  function GroupRequest(subType: int, time: int, groupId: int, userId: int, message: string, flag: string): (p: Payload)
    ensures WellFormed(p)
    ensures p.Keys == {"post_type", "request_type", "sub_type", "time", "group_id", "user_id", "message", "flag"}
    ensures KindOf(p) == Some(GroupRequestKind) && p["time"] == JInteger(time)
    ensures p["sub_type"] == JString(Labels.GroupRequestSubType(subType))
    ensures p["flag"] == JString(flag)
    ensures p["group_id"] == JInteger(groupId) && p["user_id"] == JInteger(userId)
    ensures p["message"] == JString(message)
  {
    map[
      "post_type" := JString("request"),
      "request_type" := JString("group"),
      "sub_type" := JString(Labels.GroupRequestSubType(subType)),
      "time" := JInteger(time),
      "group_id" := JInteger(groupId),
      "user_id" := JInteger(userId),
      "message" := JString(message),
      "flag" := JString(flag)]
  }
}

=== FILE: request.dfy ===
/**
 * The envelope of the HTTP API dispatcher (request.h): return codes, the
 * default result, parameter lookup over URL arguments, form and JSON body
 * with typed getters that fall back to defaults, and the handler map ordered
 * by strcmp.
 */
module Request {
  import opened Wrappers
  import opened Json
  import Text
  import opened Ints

  /** cqhttp_retcode */
  datatype Retcode = Ok | ErrorDefault | NoSuchApi | InvalidData

  function RetcodeValue(r: Retcode): (v: int)
    ensures v >= 0
  {
    match r
    case Ok => 0
    case ErrorDefault => 100
    case NoSuchApi => 101
    case InvalidData => 102
  }

  /** The named code an integer stands for; nothing for other codes, such as the platform's negative ones. */
  function RetcodeOf(v: int): (r: Option<Retcode>)
    ensures r.Some? <==> v in {0, 100, 101, 102}
    ensures r.Some? ==> RetcodeValue(r.value) == v
    ensures forall c :: RetcodeValue(c) == v ==> r == Some(c)
  {
    match v
    case 0 => Some(Ok)
    case 100 => Some(ErrorDefault)
    case 101 => Some(NoSuchApi)
    case 102 => Some(InvalidData)
    case _ => None
  }

  /** cqhttp_result: a return code and optional data. */
  datatype CqResult = CqResult(retcode: int, data: Option<Json>)

  /** The default-constructed result. */
  function DefaultResult(): (r: CqResult)
    ensures RetcodeOf(r.retcode) == Some(ErrorDefault) && r.retcode == 100
    ensures r.data.None?
  {
    CqResult(RetcodeValue(ErrorDefault), None)
  }

  /** The HTTP status a result travels with: 404 Not Found for NO_SUCH_API alone. */
  function HttpStatus(r: CqResult): (status: int)
    ensures status == 404 <==> RetcodeOf(r.retcode) == Some(NoSuchApi)
    ensures status != 404 ==> status == 200
  {
    if r.retcode == RetcodeValue(NoSuchApi) then 404 else 200
  }

  /** cqhttp_request: the path, the decoded URL arguments and form, and the JSON body if any. */
  datatype Request = Request(path: string, args: map<string, string>, form: map<string, string>, json: Option<Json>)

  /** A resolved parameter: text from the arguments or form, or a member of the JSON body. */
  datatype Param = FromText(text: string) | FromJson(value: Json)

  /** cqhttp_get_param: URL arguments first, then the form, then the JSON body. */
  function GetParam(request: Request, key: string): (p: Option<Param>)
    ensures p.None? <==> key !in request.args && key !in request.form &&
                         (request.json.None? || ObjectGet(request.json.value, key).None?)
    ensures key in request.args ==> p == Some(FromText(request.args[key]))
    ensures key !in request.args && key in request.form ==> p == Some(FromText(request.form[key]))
    ensures key !in request.args && key !in request.form && p.Some? ==>
      p == Some(FromJson(request.json.value.fields[key]))
  {
    if key in request.args then Some(FromText(request.args[key]))
    else if key in request.form then Some(FromText(request.form[key]))
    else if request.json.Some? && ObjectGet(request.json.value, key).Some? then
      Some(FromJson(request.json.value.fields[key]))
    else None
  }

  /** cqhttp_get_str_param: the text of the parameter, or `defaultVal` (by default "") when there is no text under the key. */
  function GetStrParam(request: Request, key: string, defaultVal: string := ""): (s: string)
    ensures GetParam(request, key).None? ==> s == defaultVal
    ensures key in request.args ==> s == request.args[key]
    ensures key !in request.args && key in request.form ==> s == request.form[key]
    ensures GetParam(request, key).Some? && GetParam(request, key).value.FromJson? ==>
      s == (if GetParam(request, key).value.value.JString? then GetParam(request, key).value.value.s else defaultVal)
  {
    match GetParam(request, key)
    case Some(FromText(t)) => t
    case Some(FromJson(JString(t))) => t
    case _ => defaultVal
  }

  /** The integer a parameter denotes: decimal text or a JSON integer, within 64 bits. */
  function IntegerOf(p: Param): (n: Option<int>)
    ensures n.Some? ==> IsInt64(n.value)
  {
    var v := match p
      case FromText(t) => Text.ParseDecimal(t)
      case FromJson(JInteger(i)) => Some(i)
      case FromJson(_) => None;
    if v.Some? && IsInt64(v.value) then v else None
  }

  /** cqhttp_get_integer_param: the int64 if there is one, `defaultVal` (by default 0) otherwise; never an error. */
  function GetIntegerParam(request: Request, key: string, defaultVal: int64 := 0): (n: int64)
    ensures GetParam(request, key).None? ==> n == defaultVal
    ensures GetParam(request, key).Some? && IntegerOf(GetParam(request, key).value).None? ==> n == defaultVal
    ensures GetParam(request, key).Some? && IntegerOf(GetParam(request, key).value).Some? ==>
      n as int == IntegerOf(GetParam(request, key).value).value
  {
    var p := GetParam(request, key);
    if p.None? then defaultVal
    else
      var v := IntegerOf(p.value);
      if v.Some? then v.value as int64 else defaultVal
  }

  /** The boolean a parameter denotes: "true"/"1" or "false"/"0" as text, or a JSON boolean. */
  function BoolOf(p: Param): (b: Option<bool>)
    ensures b == Some(true) <==> p in {FromText("true"), FromText("1"), FromJson(JBool(true))}
    ensures b == Some(false) <==> p in {FromText("false"), FromText("0"), FromJson(JBool(false))}
  {
    match p
    case FromText(t) =>
      if t == "true" || t == "1" then Some(true)
      else if t == "false" || t == "0" then Some(false)
      else None
    case FromJson(JBool(b)) => Some(b)
    case FromJson(_) => None
  }

  /** cqhttp_get_bool_param: the boolean if there is one, `defaultVal` (by default false) otherwise; never an error. */
  function GetBoolParam(request: Request, key: string, defaultVal: bool := false): (b: bool)
    ensures GetParam(request, key).None? ==> b == defaultVal
    ensures GetParam(request, key).Some? && BoolOf(GetParam(request, key).value).None? ==> b == defaultVal
    ensures GetParam(request, key).Some? && BoolOf(GetParam(request, key).value).Some? ==>
      b == BoolOf(GetParam(request, key).value).value
  {
    var p := GetParam(request, key);
    if p.None? then defaultVal
    else
      var v := BoolOf(p.value);
      if v.Some? then v.value else defaultVal
  }

  /** An integer written by itos into the URL arguments reads back as that integer. */
  lemma IntegerParamRoundTrip(request: Request, key: string, n: int64, defaultVal: int64)
    requires key in request.args && request.args[key] == Text.Itos(n as int)
    ensures GetIntegerParam(request, key, defaultVal) == n
  {
    Text.ParseDecimalItos(n as int);
  }

  /** A getter called without a default gives the header's: "", 0 and false for a key that is nowhere. */
  lemma DefaultArguments(request: Request, key: string)
    requires GetParam(request, key).None?
    ensures GetStrParam(request, key) == ""
    ensures GetIntegerParam(request, key) == 0
    ensures !GetBoolParam(request, key)
  {
  }

  /**
   * c_str_comparator: strcmp(a, b) < 0, comparing character by character.
   * A string orders before every longer string it is a prefix of.
   */
  predicate StrLess(a: string, b: string): (less: bool)
    ensures less ==> a != b
    ensures a < b ==> less
    ensures |a| > 0 && |b| > 0 && a[0] < b[0] ==> less
    decreases |a|
  {
    if a == [] then b != []
    else if b == [] then false
    else if a[0] != b[0] then a[0] < b[0]
    else StrLess(a[1..], b[1..])
  }

  lemma {:induction false} StrLessIrreflexive(a: string)
    ensures !StrLess(a, a)
    decreases |a|
  {
    if a != [] {
      StrLessIrreflexive(a[1..]);
    }
  }

  lemma {:induction false} StrLessTransitive(a: string, b: string, c: string)
    requires StrLess(a, b) && StrLess(b, c)
    ensures StrLess(a, c)
    decreases |a|
  {
    if a != [] && b != [] && c != [] && a[0] == b[0] && b[0] == c[0] {
      StrLessTransitive(a[1..], b[1..], c[1..]);
    }
  }

  /** The first position where two strings differ decides the order, and a proper prefix orders first. */
  lemma {:induction false} StrLessLexicographic(a: string, b: string)
    ensures StrLess(a, b) <==>
      a < b || exists i :: 0 <= i < |a| && i < |b| && a[..i] == b[..i] && a[i] < b[i]
    decreases |a|
  {
    if a != [] && b != [] && a[0] == b[0] {
      StrLessLexicographic(a[1..], b[1..]);
      if StrLess(a, b) && !(a < b) {
        assert !(a[1..] < b[1..]);
        var i :| 0 <= i < |a[1..]| && i < |b[1..]| && a[1..][..i] == b[1..][..i] && a[1..][i] < b[1..][i];
        assert a[..i + 1] == [a[0]] + a[1..][..i];
        assert b[..i + 1] == [b[0]] + b[1..][..i];
      }
      if a < b {
        assert a[1..] < b[1..];
      }
      if exists i :: 0 <= i < |a| && i < |b| && a[..i] == b[..i] && a[i] < b[i] {
        var i :| 0 <= i < |a| && i < |b| && a[..i] == b[..i] && a[i] < b[i];
        assert i > 0;
        assert a[1..][..i - 1] == a[1..i] == b[1..i] == b[1..][..i - 1];
        assert a[1..][i - 1] < b[1..][i - 1];
      }
    } else if a != [] && b != [] {
      if a[0] < b[0] {
        assert a[..0] == b[..0];
      }
    }
  }

  /** Two strings neither of which orders before the other are the same string: the map's lookup is exact. */
  lemma {:induction false} StrLessTrichotomous(a: string, b: string)
    ensures a == b || StrLess(a, b) || StrLess(b, a)
    decreases |a|
  {
    if a != [] && b != [] && a[0] == b[0] {
      StrLessTrichotomous(a[1..], b[1..]);
      if a[1..] == b[1..] {
        assert a == [a[0]] + a[1..] && b == [b[0]] + b[1..];
      }
    }
  }

  /** A handler: from a request to its result. */
  type Handler = Request -> CqResult

  /** cqhttp_request_handler_map, listed in its order: keys strictly increasing under strcmp. */
  datatype HandlerMap = HandlerMap(entries: seq<(string, Handler)>)

  predicate Ordered(m: HandlerMap)
  {
    forall i, j :: 0 <= i < j < |m.entries| ==> StrLess(m.entries[i].0, m.entries[j].0)
  }

  /** std::map::find: the entry whose key is equivalent to `key` under the comparator. */
  function Find(m: HandlerMap, key: string): (r: Option<nat>)
    requires Ordered(m)
    ensures r.Some? ==> r.value < |m.entries| && m.entries[r.value].0 == key
    ensures r.None? <==> forall i :: 0 <= i < |m.entries| ==> m.entries[i].0 != key
  {
    FindFrom(m, key, 0)
  }

  function FindFrom(m: HandlerMap, key: string, i: nat): (r: Option<nat>)
    requires Ordered(m) && i <= |m.entries|
    ensures r.Some? ==> i <= r.value < |m.entries| && m.entries[r.value].0 == key
    ensures r.None? <==> forall j :: i <= j < |m.entries| ==> m.entries[j].0 != key
    decreases |m.entries| - i
  {
    if i == |m.entries| then None
    else if !StrLess(m.entries[i].0, key) && !StrLess(key, m.entries[i].0) then
      StrLessTrichotomous(m.entries[i].0, key);
      Some(i)
    else
      StrLessIrreflexive(key);
      FindFrom(m, key, i + 1)
  }

  /** An ordered map holds each key once, so the entry found is the only one with that key. */
  lemma OrderedKeysUnique(m: HandlerMap, i: nat, j: nat)
    requires Ordered(m) && i < |m.entries| && j < |m.entries|
    requires m.entries[i].0 == m.entries[j].0
    ensures i == j
  {
  }

  /** Dispatch: the handler registered for the exact path, or NO_SUCH_API with no data. */
  function Dispatch(m: HandlerMap, request: Request): (r: CqResult)
    requires Ordered(m)
    ensures (forall i :: 0 <= i < |m.entries| ==> m.entries[i].0 != request.path) ==>
      r == CqResult(RetcodeValue(NoSuchApi), None) && HttpStatus(r) == 404
    ensures forall i :: 0 <= i < |m.entries| && m.entries[i].0 == request.path ==> r == m.entries[i].1(request)
  {
    match Find(m, request.path)
    case None => CqResult(RetcodeValue(NoSuchApi), None)
    case Some(i) =>
      forall j | 0 <= j < |m.entries| && m.entries[j].0 == request.path
        ensures j == i
      {
        OrderedKeysUnique(m, i, j);
      }
      m.entries[i].1(request)
  }
}

=== FILE: text.dfy ===
/**
 * Decimal text of integers: `itos`, used to build the mention marker of a
 * group reply, and the matching parser used when a request parameter is read
 * as an integer.
 */
module Text {
  import opened Wrappers

  predicate IsDigit(c: char)
  {
    '0' <= c <= '9'
  }

  predicate AllDigits(s: string)
  {
    forall i :: 0 <= i < |s| ==> IsDigit(s[i])
  }

  function DigitChar(d: nat): (c: char)
    requires d < 10
    ensures IsDigit(c) && c as int - '0' as int == d
  {
    ('0' as int + d) as char
  }

  /** Decimal digits of `n`, most significant first, with no leading zero. */
  function Digits(n: nat): (s: string)
    ensures |s| > 0 && AllDigits(s)
    ensures |s| > 1 ==> s[0] != '0'
    decreases n
  {
    if n < 10 then [DigitChar(n)] else Digits(n / 10) + [DigitChar(n % 10)]
  }

  /** itos: the decimal text of `n`, with a leading '-' when it is negative. */
  function Itos(n: int): (s: string)
    ensures |s| > 0
    ensures s[0] == '-' <==> n < 0
    ensures AllDigits(if n < 0 then s[1..] else s)
  {
    if n < 0 then "-" + Digits(-n) else Digits(n)
  }

  /** The value of a run of decimal digits. */
  function NatValue(s: string): nat
    requires AllDigits(s)
  {
    if s == [] then 0 else NatValue(s[..|s| - 1]) * 10 + (s[|s| - 1] as int - '0' as int)
  }

  /** A decimal integer: digits, optionally after one '-'; nothing for any other text. */
  function ParseDecimal(s: string): (r: Option<int>)
    ensures r.Some? <==> (|s| > 0 && AllDigits(s)) || (|s| > 1 && s[0] == '-' && AllDigits(s[1..]))
    ensures r.Some? && |s| > 0 && s[0] == '-' ==> r.value <= 0
    ensures r.Some? && |s| > 0 && s[0] != '-' ==> r.value >= 0
  {
    if |s| > 0 && AllDigits(s) then Some(NatValue(s) as int)
    else if |s| > 1 && s[0] == '-' && AllDigits(s[1..]) then Some(-(NatValue(s[1..]) as int))
    else None
  }

  lemma {:induction false} NatValueOfDigits(n: nat)
    ensures NatValue(Digits(n)) == n
    decreases n
  {
    if n >= 10 {
      var s := Digits(n);
      assert s == Digits(n / 10) + [DigitChar(n % 10)];
      assert s[..|s| - 1] == Digits(n / 10);
      NatValueOfDigits(n / 10);
    }
  }

  /** Reading back the text `itos` writes gives the number again. */
  lemma {:induction false} ParseDecimalItos(n: int)
    ensures ParseDecimal(Itos(n)) == Some(n)
  {
    if n < 0 {
      var s := Itos(n);
      assert s[1..] == Digits(-n);
      assert !IsDigit(s[0]);
      NatValueOfDigits(-n);
    } else {
      NatValueOfDigits(n);
    }
  }

  /** Distinct numbers have distinct decimal texts. */
  lemma ItosInjective(a: int, b: int)
    requires Itos(a) == Itos(b)
    ensures a == b
  {
    ParseDecimalItos(a);
    ParseDecimalItos(b);
  }
}

=== FILE: webhook.dfy ===
/**
 * The webhook delivery of post_event (appmain.cpp:106-151): the request
 * headers it assembles and the rule that turns a transport outcome into the
 * handler's response. The transfer itself is left to the transport.
 */
module Webhook {
  import opened Wrappers
  import opened Json
  import Payloads

  const CONTENT_TYPE: string := "Content-Type: application/json"
  const AUTHORIZATION: string := "Authorization: token "

  /** What the transport reports: no handle could be made, the transfer failed, or a reply arrived. */
  datatype Transport = NoHandle | Failed | Completed(status: int, body: string)

  /** cqhttp_post_response: whether a 2xx came back, and the parsed body, if any. */
  datatype PostResponse = PostResponse(succeeded: bool, json: Option<Json>)

  /** One POST as handed to the transport. */
  datatype Delivery = Delivery(url: string, headers: seq<string>, payload: Payloads.Payload)

  predicate StartsWith(s: string, prefix: string)
  {
    |prefix| <= |s| && s[..|prefix|] == prefix
  }

  /** Some header line authenticates the delivery. */
  predicate HasAuthorization(headers: seq<string>)
  {
    exists i :: 0 <= i < |headers| && StartsWith(headers[i], AUTHORIZATION)
  }

  /** The header list: the product identifier, the content type, and the token when one is configured. */
  function Headers(appFullName: string, token: string): (headers: seq<string>)
    ensures |headers| == if token == "" then 2 else 3
    ensures headers[0] == "User-Agent: " + appFullName && headers[1] == CONTENT_TYPE
    ensures token != "" ==> headers[2] == AUTHORIZATION + token
    ensures HasAuthorization(headers) <==> token != ""
  {
    var headers := ["User-Agent: " + appFullName, CONTENT_TYPE];
    var headers := if token != "" then headers + [AUTHORIZATION + token] else headers;
    assert !StartsWith(headers[0], AUTHORIZATION) by {
      assert headers[0][0] == 'U' != AUTHORIZATION[0];
    }
    assert !StartsWith(headers[1], AUTHORIZATION) by {
      assert headers[1][0] == 'C' != AUTHORIZATION[0];
    }
    assert token != "" ==> StartsWith(headers[2], AUTHORIZATION);
    headers
  }

  /** Builds the header list one line at a time, as the curl list is built. */
  method BuildHeaders(appFullName: string, token: string) returns (chunk: seq<string>)
    ensures chunk == Headers(appFullName, token)
    ensures HasAuthorization(chunk) <==> token != ""
  {
    chunk := [];
    chunk := chunk + ["User-Agent: " + appFullName];
    chunk := chunk + [CONTENT_TYPE];
    if token != "" {
      chunk := chunk + [AUTHORIZATION + token];
    }
  }

  /**
   * The response of a post: success means a reply with a status in
   * [200, 300), and only a successful reply's body is parsed.
   */
  function Classify(t: Transport, parse: string -> Option<Json>): (r: PostResponse)
    ensures r.succeeded <==> t.Completed? && 200 <= t.status < 300
    ensures r.json.Some? ==> r.succeeded
    ensures r.succeeded ==> r.json == parse(t.body)
  {
    if t.Completed? && t.status >= 200 && t.status < 300 then PostResponse(true, parse(t.body))
    else PostResponse(false, None)
  }
}

=== FILE: wrappers.dfy ===
/** Optional values, standing for the C code's nullable pointers. */
module Wrappers {

  datatype Option<+T> = None | Some(value: T)
}
